=== FILE: README.md ===
# Power Automate connector: schema and manifest validation

This project models the validation script of a Power Automate connector
(`scripts/validate-schemas.js`). The script runs three checks and turns their
results into a process exit code:

- the OpenAPI check hands the OpenAPI document to an external validator;
- the schema check requires the schema document to have a truthy `schemas`
  member holding truthy `Flow` and `FlowRun` entries;
- the manifest check requires seven truthy properties (`id`, `name`,
  `version`, `description`, `publisher`, `endpoints`, `actions`) and an
  `actions` member that is a non-empty array.

Both shape checks read a parsed JSON value (RFC 8259, section 3) with
ECMAScript property reads and test the results with ECMAScript truthiness
(ToBoolean, section 7.1.2 of ECMA-262). So `""`, `0`, `false` and `null` count as
missing. An empty array is truthy: `actions: []` passes the presence loop and
fails only the explicit array check.

Files:

- `json.dfy` (module `Json`): the `Json` datatype, `Truthy`, property lookup
  with last-duplicate-wins semantics, and the property read `v[key]` that
  throws on `null`.
- `validators.dfy` (module `Validate`): `ValidateSchema`, `ValidateManifest`,
  the ordered presence scan they share, and reference predicates
  (`WellFormedSchemaDocument`, `WellFormedManifest`) that state the accepted
  shapes independently of the checking order.
- `validate_lemmas.dfy` (module `ValidateLemmas`): ordering of the reported
  failure, the `actions` edge cases, non-object documents, and "a falsy member
  is the same as an absent one".
- `runner.dfy` (module `Runner`): `main`'s AND of the three results and its
  exit code.
- `scenarios.dfy` (module `Scenarios`): representative documents (complete
  documents pass; a missing `FlowRun`, a falsy `publisher`, an empty `actions`
  fail with the field named).

The script's own wording and its conditions differ, and the model follows
the conditions. The comment at scripts/validate-schemas.js:48 speaks of checking that
the required schemas "exist". The messages at lines 52 and 77 report a
"missing" schema or property. The conditions at lines 51 and 76 are `!value[key]`,
which is a truthiness test. So a member that exists but whose value is `null`,
`0`, `false` or `""` is rejected and reported as missing.

The two shape checks are functions of the file contents alone: the same
schema or manifest file always gives the same outcome. This does not hold for
the whole run, because the OpenAPI verdict is an input to the model (see
"Left out").

## Model

| member | source | states |
|---|---|---|
| `Json.Truthy` | scripts/validate-schemas.js:76 | Only a defined, non-null value can be truthy; every array and every object is truthy, even an empty one. |
| `Json.Lookup` | scripts/validate-schemas.js:71 | The own-property read of a parsed object. A defined result is the value of a member with that key. Which member, when the key repeats, is fixed by `LookupFindsLast` and `LookupAbsent`. |
| `Json.LookupFindsLast` | scripts/validate-schemas.js:71 | When a key occurs in the parsed object, a read of it yields the value of its last occurrence. |
| `Json.LookupAbsent` | scripts/validate-schemas.js:71 | A key that no member has reads as `undefined`. |
| `Json.Get` | scripts/validate-schemas.js:43 | Reading a property throws exactly on `null`. Only an object can yield a defined value. |
| `Validate.Present` | scripts/validate-schemas.js:76 | `!v[key]` is false exactly when `v` is an object whose member `key` is truthy. |
| `Validate.FindMissing` | scripts/validate-schemas.js:74-80 | The ordered presence loop throws exactly on `null` with a non-empty key list. It completes exactly when every key is present. Otherwise it stops at a missing key, and every key before that one is present. |
| `Validate.RequiredPropsDistinct` | scripts/validate-schemas.js:74 | The seven required manifest properties are pairwise distinct. |
| `Validate.ValidateSchema` | scripts/validate-schemas.js:36-64 | Passes iff the document is an object whose `schemas` member is an object with truthy `Flow` and `FlowRun`. A missing file, a parse error or `null` fail as caught. Otherwise a falsy `schemas` is reported first, then a missing `Flow`, then a missing `FlowRun`; no other failure occurs. |
| `Validate.IsNonEmptyArray` | scripts/validate-schemas.js:83 | The `Array.isArray(actions) && actions.length !== 0` test. A value that passes it is read without throwing and is truthy, so it also passes the presence check at line 76. |
| `Validate.ValidateManifest` | scripts/validate-schemas.js:67-95 | A missing file, a parse error or `null` fail as caught, and nothing else does. A reported property is a required one that is missing, and every property before it in the list is present. A manifest failure never names a schema. |
| `Validate.ManifestAcceptsExactlyWellFormed` | scripts/validate-schemas.js:74-89 | The manifest check passes iff the document is an object whose seven required members are truthy and whose `actions` is a non-empty array. |
| `ValidateLemmas.FlowReportedFirst` | scripts/validate-schemas.js:49-54 | When both named schemas are missing, the failure names `Flow`. |
| `ValidateLemmas.MissingSchemasComesFirst` | scripts/validate-schemas.js:40-46 | When the last `schemas` member of a document is falsy, wherever it stands, the failure is the `schemas` one, whatever the other members hold. An earlier `schemas` member does not matter, because `JSON.parse` keeps the last one. |
| `ValidateLemmas.ManifestReportsEarliestMissing` | scripts/validate-schemas.js:74-79 | Of two missing required properties, the later one is never reported; the reported one comes no later than the earlier. |
| `ValidateLemmas.ManifestNamesFirstMissing` | scripts/validate-schemas.js:74-79 | Required property i is reported iff the document is a non-null value, property i is missing and every earlier property is present. |
| `ValidateLemmas.ManifestActionsFailure` | scripts/validate-schemas.js:83-86 | The `actions` failure occurs iff all seven properties are present but `actions` is not a non-empty array. |
| `ValidateLemmas.EmptyActionsRejected` | scripts/validate-schemas.js:76-86 | An empty `actions` array passes the presence check and is rejected by the non-empty-array check. |
| `ValidateLemmas.NonArrayActionsRejected` | scripts/validate-schemas.js:83-86 | A truthy `actions` value that is not an array is rejected by the same check. |
| `ValidateLemmas.NonObjectNeverValidates` | scripts/validate-schemas.js:43-94 | A document that is not an object never passes. `null` fails as caught; any other value reports `schemas` or `id` missing. |
| `ValidateLemmas.FalsyMemberLikeAbsent` | scripts/validate-schemas.js:76 | An object whose member `key` reads as falsy (`""`, `0`, `false`, `null`, or absent), wherever that member stands, agrees on its truthy members with the same object with every `key` member removed. |
| `ValidateLemmas.FindMissingSeesOnlyPresence` | scripts/validate-schemas.js:75-80 | The presence loop's result depends only on which keys are present and on whether the value is `null`. |
| `ValidateLemmas.ManifestSeesOnlyTruthyMembers` | scripts/validate-schemas.js:74-86 | Manifests that agree on their truthy members get the same outcome. |
| `ValidateLemmas.SchemaSeesOnlyTruthyMembers` | scripts/validate-schemas.js:43-55 | Schema documents that agree on their truthy members, or whose `schemas` members do, get the same outcome. |
| `ValidateLemmas.ManifestFalsyMemberIsAbsent` | scripts/validate-schemas.js:75-79 | A manifest whose member `key` reads as `""`, `0`, `false` or `null`, at any position, gets the same outcome as the manifest with every member named `key` removed. |
| `ValidateLemmas.SchemaFalsyMemberIsAbsent` | scripts/validate-schemas.js:43-46 | A schema document whose top-level member `key` reads as falsy, at any position, gets the same outcome as the document with every member named `key` removed. |
| `ValidateLemmas.NamedSchemaFalsyIsAbsent` | scripts/validate-schemas.js:50-54 | Two documents get the same outcome when the `schemas` member of one reads `key` as falsy, such as `"Flow": 0`, and the `schemas` member of the other is the same object with every member named `key` removed. |
| `Runner.Main` | scripts/validate-schemas.js:98-118 | The exit code is 0 or 1. It is 0 iff no exception escapes, the OpenAPI check passed, and both documents have the accepted shapes. |
| `Runner.AnyFailureExitsOne` | scripts/validate-schemas.js:105-111 | If any one check fails, the run exits with 1. |
| `Scenarios.CompleteSchemaDocumentPasses` | scripts/validate-schemas.js:49-58 | `{"schemas": {"Flow": …, "FlowRun": …}}` passes. |
| `Scenarios.MissingFlowRunIsNamed` | scripts/validate-schemas.js:50-53 | `{"schemas": {"Flow": …}}` fails, naming `FlowRun`. |
| `Scenarios.NullFlowIsMissing` | scripts/validate-schemas.js:51-53 | `"Flow": null` fails, naming `Flow`. |
| `Scenarios.ZeroFlowLikeAbsent` | scripts/validate-schemas.js:51-53 | `{"schemas": {"Flow": 0, "FlowRun": …}}`, with `Flow` first in document order, gets the same outcome as `{"schemas": {"FlowRun": …}}`. |
| `Scenarios.CompleteManifestPasses` | scripts/validate-schemas.js:74-89 | A manifest listing the seven properties, all truthy, with a non-empty `actions` array passes. |
| `Scenarios.FalsyPublisherIsMissing` | scripts/validate-schemas.js:75-78 | If `publisher` is falsy and the properties before it are truthy, the failure names `publisher`. |
| `Scenarios.EmptyActionsFail` | scripts/validate-schemas.js:83-85 | `"actions": []` with the other properties truthy fails the non-empty-array check. |
| `Scenarios.AllValidExitsZero` | scripts/validate-schemas.js:105-107 | With a passing OpenAPI check and valid documents, the exit code is 0. |

## Left out

- `validateOpenAPI` (scripts/validate-schemas.js:19-33) calls an external OpenAPI validator whose behaviour is not visible. It enters `Runner.Main` as a boolean parameter. Its log lines are not modelled. Because that validator may resolve external `$ref` targets, its verdict, and so the exit code, can differ between two runs on unchanged files; the model makes no claim there.
- File paths and file reading (lines 14-16, 39, 70) are I/O. `JSON.parse` is a library call. A file that cannot be read or parsed is the single `Unreadable` document, and the check's `catch` turns it into a failure.
- Console messages and `process.exit` are side effects. The failure reason is a `Failure` value naming the field, and the exit code is an integer.
- `Runner.Main`: an exception escaping `main` is the `escaped` parameter. Nothing in the model raises one, because both shape checks catch their own errors. In the script only code outside the model, such as console output, could throw there.
- `async`/`await`: the checks run one after another and share no state, so ordering cannot change a result.
- The `Ajv` import (line 10) is never used.
- JSON numbers: `Json.Num` keeps only whether the parsed double is zero. A literal that underflows to zero in IEEE double arithmetic, such as `1e-400`, is therefore a zero number. Its exact value and rounding are not modelled.
- `Json.Get`: a property read on a non-object value yields `undefined`. This is exact for keys that are not array indices, not `length` and not inherited prototype names. All ten keys the script reads are such keys. Inherited members of objects (for example `constructor`) are not modelled either, for the same reason.
- The packaging metadata and the Python stub module with its tests contain no validation behaviour.

=== FILE: json.dfy ===
/**
 JSON values as `JSON.parse` produces them (RFC 8259, section 3), and the two
 pieces of ECMAScript semantics the validators rely on: reading a property with
 `value[key]` and converting the result to a boolean (ToBoolean, section 7.1.2
 of ECMA-262).
 */
module Json {

  /** A parsed JSON value. A number keeps only whether the double that
      `JSON.parse` produced for it is zero (+0 or -0), the one fact about
      numbers that truthiness observes. An object keeps its members in
      document order, duplicates included. */
  datatype Json =
    | Null
    | Bool(b: bool)
    | Num(isZero: bool)
    | Str(s: string)
    | Arr(elems: seq<Json>)
    | Obj(members: seq<Member>)

  datatype Member = Member(key: string, value: Json)

  /** The value of a property read: `undefined` or a JSON value. */
  datatype Prop = Undefined | Defined(value: Json)

  /** The completion of a property read: it throws a TypeError or yields a value. */
  datatype Access = TypeError | Read(prop: Prop)

  /** ToBoolean: `undefined`, `null`, `false`, zero and the empty string are
      falsy; every array and every object, empty or not, is truthy. */
  predicate Truthy(p: Prop)
    ensures Truthy(p) ==> p.Defined? && !p.value.Null?
    ensures p.Defined? && (p.value.Arr? || p.value.Obj?) ==> Truthy(p)
  {
    match p
    case Undefined => false
    case Defined(v) =>
      match v
      case Null => false
      case Bool(b) => b
      case Num(isZero) => !isZero
      case Str(s) => |s| > 0
      case Arr(_) => true
      case Obj(_) => true
  }

  /** The own property `key` of an object with members `ms`. When a key is
      repeated, `JSON.parse` keeps the last occurrence. */
  function Lookup(ms: seq<Member>, key: string): (p: Prop)
    ensures p.Defined? ==> Member(key, p.value) in ms
    decreases |ms|
  {
    if |ms| == 0 then Undefined
    else if ms[|ms| - 1].key == key then Defined(ms[|ms| - 1].value)
    else Lookup(ms[..|ms| - 1], key)
  }

  /** The last member named `key` is the one a lookup finds. */
  lemma {:induction false} LookupFindsLast(ms: seq<Member>, i: nat)
    requires i < |ms|
    requires forall j | i < j < |ms| :: ms[j].key != ms[i].key
    ensures Lookup(ms, ms[i].key) == Defined(ms[i].value)
    decreases |ms|
  {
    if i < |ms| - 1 {
      var init := ms[..|ms| - 1];
      assert init[i] == ms[i];
      assert forall j | i < j < |init| :: init[j] == ms[j];
      LookupFindsLast(init, i);
    }
  }

  /** A key that no member has reads `undefined`. */
  lemma {:induction false} LookupAbsent(ms: seq<Member>, key: string)
    requires forall i | 0 <= i < |ms| :: ms[i].key != key
    ensures Lookup(ms, key) == Undefined
    decreases |ms|
  {
    if |ms| > 0 {
      var init := ms[..|ms| - 1];
      assert forall j | 0 <= j < |init| :: init[j] == ms[j];
      LookupAbsent(init, key);
    }
  }

  /** The property read `v[key]`: it throws on `null`, finds the own member of
      an object, and yields `undefined` on every other value. The last case is
      exact for keys that are neither array indices, `length`, nor names
      inherited from a prototype. */
  function Get(v: Json, key: string): (a: Access)
    ensures a.TypeError? <==> v.Null?
    ensures a.Read? && a.prop.Defined? ==> v.Obj?
  {
    match v
    case Null => TypeError
    case Obj(ms) => Read(Lookup(ms, key))
    case _ => Read(Undefined)
  }

  /** `ms` without any member named `key`. */
  function Without(ms: seq<Member>, key: string): (r: seq<Member>)
    ensures forall i | 0 <= i < |r| :: r[i].key != key && r[i] in ms
    decreases |ms|
  {
    if |ms| == 0 then []
    else
      var rest := Without(ms[..|ms| - 1], key);
      if ms[|ms| - 1].key == key then rest else rest + [ms[|ms| - 1]]
  }

  /** Removing `key` leaves every other member's value as it was. */
  lemma {:induction false} LookupWithout(ms: seq<Member>, key: string, other: string)
    ensures Lookup(Without(ms, key), other) ==
      if other == key then Undefined else Lookup(ms, other)
    decreases |ms|
  {
    if |ms| > 0 {
      var init, last := ms[..|ms| - 1], ms[|ms| - 1];
      LookupWithout(init, key, other);
      var rest := Without(init, key);
      if last.key != key {
        assert (rest + [last])[..|rest|] == rest;
      }
    }
  }
}

=== FILE: runner.dfy ===
/**
 The script's `main`: it runs the OpenAPI check, the schema check and the
 manifest check, ANDs their results and exits with 0 or 1. The OpenAPI check
 delegates to an external validator and enters the model as its boolean
 result.
 */
module Runner {
  import opened Validate

  /** The process exit code of one run. `escaped` stands for an exception
      that leaves `main` and reaches its top-level `catch`; the two shape
      checks catch their own errors, so none comes from them. */
  function Main(openApiValid: bool, schemaDoc: Document, manifestDoc: Document, escaped: bool): (code: int)
    ensures code == 0 || code == 1
    ensures code == 0 <==>
      && !escaped
      && openApiValid
      && schemaDoc.Parsed? && WellFormedSchemaDocument(schemaDoc.value)
      && manifestDoc.Parsed? && WellFormedManifest(manifestDoc.value)
  {
    ManifestAcceptsExactlyWellFormed(manifestDoc);
    if escaped then 1
    else if openApiValid && ValidateSchema(schemaDoc).Pass? && ValidateManifest(manifestDoc).Pass? then 0
    else 1
  }

  /** Any one failing check makes the run exit with 1, whatever the others
      found. */
  lemma AnyFailureExitsOne(openApiValid: bool, schemaDoc: Document, manifestDoc: Document)
    requires !openApiValid || ValidateSchema(schemaDoc).Fail? || ValidateManifest(manifestDoc).Fail?
    ensures Main(openApiValid, schemaDoc, manifestDoc, false) == 1
  {
  }
}

=== FILE: scenarios.dfy ===
/**
 Representative documents and the outcome each check reaches on them.
 */
module Scenarios {
  import opened Json
  import opened Validate
  import Runner
  import ValidateLemmas

  /** A stand-in schema definition; any truthy value would do. */
  const SampleSchema: Json := Obj([Member("type", Str("object"))])

  /** The position of `publisher` among the required properties. */
  const PublisherIndex: nat := 4

  /** `v` is an object listing exactly the required manifest properties,
      in their checking order. */
  predicate ListsRequiredProps(v: Json) {
    && v.Obj?
    && |v.members| == |RequiredProps|
    && forall i | 0 <= i < |RequiredProps| :: v.members[i].key == RequiredProps[i]
  }

  /** Every member of `ms` is found by its key. */
  lemma FindAll(ms: seq<Member>)
    requires forall i, j | 0 <= i < j < |ms| :: ms[i].key != ms[j].key
    ensures forall i | 0 <= i < |ms| :: Lookup(ms, ms[i].key) == Defined(ms[i].value)
  {
    forall i | 0 <= i < |ms|
      ensures Lookup(ms, ms[i].key) == Defined(ms[i].value)
    {
      LookupFindsLast(ms, i);
    }
  }

  lemma CompleteSchemaDocumentPasses()
    ensures ValidateSchema(Parsed(Obj([Member("schemas",
              Obj([Member("Flow", SampleSchema), Member("FlowRun", SampleSchema)]))]))) == Pass
  {
    var inner := [Member("Flow", SampleSchema), Member("FlowRun", SampleSchema)];
    var top := [Member("schemas", Obj(inner))];
    FindAll(inner);
    FindAll(top);
    assert Lookup(top, "schemas") == Defined(Obj(inner));
    assert Lookup(inner, "Flow") == Defined(SampleSchema);
    assert Lookup(inner, "FlowRun") == Defined(SampleSchema);
  }

  lemma MissingFlowRunIsNamed()
    ensures ValidateSchema(Parsed(Obj([Member("schemas", Obj([Member("Flow", SampleSchema)]))])))
            == Fail(MissingSchema("FlowRun"))
  {
    var inner := [Member("Flow", SampleSchema)];
    var top := [Member("schemas", Obj(inner))];
    FindAll(inner);
    FindAll(top);
    LookupAbsent(inner, "FlowRun");
    assert Lookup(top, "schemas") == Defined(Obj(inner));
    assert Lookup(inner, "Flow") == Defined(SampleSchema);
  }

  lemma NullFlowIsMissing()
    ensures ValidateSchema(Parsed(Obj([Member("schemas",
              Obj([Member("Flow", Null), Member("FlowRun", SampleSchema)]))])))
            == Fail(MissingSchema("Flow"))
  {
    var inner := [Member("Flow", Null), Member("FlowRun", SampleSchema)];
    var top := [Member("schemas", Obj(inner))];
    FindAll(inner);
    FindAll(top);
    assert Lookup(top, "schemas") == Defined(Obj(inner));
    assert Lookup(inner, "Flow") == Defined(Null);
  }

  /** `"Flow": 0` written first, in document order, is judged as if `Flow`
      were not there at all. */
  lemma ZeroFlowLikeAbsent()
    ensures ValidateSchema(Parsed(Obj([Member("schemas",
              Obj([Member("Flow", Num(true)), Member("FlowRun", SampleSchema)]))])))
            == ValidateSchema(Parsed(Obj([Member("schemas", Obj([Member("FlowRun", SampleSchema)]))])))
  {
    var inner := [Member("Flow", Num(true)), Member("FlowRun", SampleSchema)];
    var u := Obj([Member("schemas", Obj(inner))]);
    var v := Obj([Member("schemas", Obj([Member("FlowRun", SampleSchema)]))]);
    FindAll(inner);
    FindAll(u.members);
    FindAll(v.members);
    assert inner[..1] == [Member("Flow", Num(true))];
    assert Without(inner[..1], "Flow") == [];
    assert Without(inner, "Flow") == [Member("FlowRun", SampleSchema)];
    ValidateLemmas.NamedSchemaFalsyIsAbsent(u, v, inner, "Flow");
  }

  /** Members listed in the order of the required properties are each found
      by their key. */
  lemma ManifestLookups(ms: seq<Member>)
    requires |ms| == |RequiredProps|
    requires forall i | 0 <= i < |ms| :: ms[i].key == RequiredProps[i]
    ensures forall i | 0 <= i < |ms| :: Lookup(ms, RequiredProps[i]) == Defined(ms[i].value)
  {
    RequiredPropsDistinct();
    forall i | 0 <= i < |ms|
      ensures Lookup(ms, RequiredProps[i]) == Defined(ms[i].value)
    {
      LookupFindsLast(ms, i);
    }
  }

  lemma CompleteManifestPasses(v: Json)
    requires ListsRequiredProps(v)
    requires forall i | 0 <= i < ActionsIndex :: Truthy(Defined(v.members[i].value))
    requires v.members[ActionsIndex].value.Arr? && |v.members[ActionsIndex].value.elems| > 0
    ensures ValidateManifest(Parsed(v)) == Pass
  {
    ManifestLookups(v.members);
    assert forall i | 0 <= i < |RequiredProps| :: Present(v, RequiredProps[i]);
  }

  /** A `publisher` of `""`, `0`, `false` or `null` is reported as missing. */
  lemma FalsyPublisherIsMissing(v: Json)
    requires ListsRequiredProps(v)
    requires forall i | 0 <= i < PublisherIndex :: Truthy(Defined(v.members[i].value))
    requires !Truthy(Defined(v.members[PublisherIndex].value))
    ensures ValidateManifest(Parsed(v)) == Fail(MissingProperty("publisher"))
  {
    ManifestLookups(v.members);
    assert forall j | 0 <= j < PublisherIndex :: Present(v, RequiredProps[j]);
    assert !Present(v, RequiredProps[PublisherIndex]);
  }

  lemma EmptyActionsFail(v: Json)
    requires ListsRequiredProps(v)
    requires forall i | 0 <= i < ActionsIndex :: Truthy(Defined(v.members[i].value))
    requires v.members[ActionsIndex].value == Arr([])
    ensures ValidateManifest(Parsed(v)) == Fail(ActionsNotNonEmptyArray)
  {
    ManifestLookups(v.members);
    assert forall i | 0 <= i < |RequiredProps| :: Present(v, RequiredProps[i]);
  }

  lemma AllValidExitsZero(manifest: Json)
    requires ListsRequiredProps(manifest)
    requires forall i | 0 <= i < ActionsIndex :: Truthy(Defined(manifest.members[i].value))
    requires manifest.members[ActionsIndex].value.Arr? && |manifest.members[ActionsIndex].value.elems| > 0
    ensures Runner.Main(true,
              Parsed(Obj([Member("schemas", Obj([Member("Flow", SampleSchema), Member("FlowRun", SampleSchema)]))])),
              Parsed(manifest), false) == 0
  {
    CompleteSchemaDocumentPasses();
    CompleteManifestPasses(manifest);
  }
}

=== FILE: validate_lemmas.dfy ===
/**
 Properties of the two shape checks that relate several documents or single
 out the edge cases of ECMAScript truthiness.
 */
module ValidateLemmas {
  import opened Json
  import opened Validate

  /** When both named schemas are missing, `Flow` is the one reported. */
  lemma FlowReportedFirst(v: Json)
    requires Present(v, "schemas")
    requires !Present(SchemasOf(v), "Flow") && !Present(SchemasOf(v), "FlowRun")
    ensures ValidateSchema(Parsed(v)) == Fail(MissingSchema("Flow"))
  {
  }

  /** When the last `schemas` member of a document, wherever it stands, is
      falsy, that is the failure, whatever the document holds besides. */
  lemma MissingSchemasComesFirst(ms: seq<Member>, i: nat)
    requires i < |ms| && ms[i].key == "schemas" && !Truthy(Defined(ms[i].value))
    requires forall j | i < j < |ms| :: ms[j].key != "schemas"
    ensures ValidateSchema(Parsed(Obj(ms))) == Fail(MissingSchemas)
  {
    LookupFindsLast(ms, i);
  }

  /** When several required properties are missing, the reported one is the
      earliest of them in the checking order. */
  lemma ManifestReportsEarliestMissing(v: Json, i: nat, j: nat)
    requires !v.Null?
    requires i < j < |RequiredProps|
    requires !Present(v, RequiredProps[i]) && !Present(v, RequiredProps[j])
    ensures ValidateManifest(Parsed(v)) != Fail(MissingProperty(RequiredProps[j]))
    ensures exists k | 0 <= k <= i :: ValidateManifest(Parsed(v)) == Fail(MissingProperty(RequiredProps[k]))
  {
  }

  /** Required property i is the one reported exactly when it is missing
      and every property before it is present. */
  lemma ManifestNamesFirstMissing(doc: Document, i: nat)
    requires i < |RequiredProps|
    ensures ValidateManifest(doc) == Fail(MissingProperty(RequiredProps[i])) <==>
      && doc.Parsed?
      && !doc.value.Null?
      && !Present(doc.value, RequiredProps[i])
      && forall j | 0 <= j < i :: Present(doc.value, RequiredProps[j])
  {
    // Not needed for soundness; it keeps the solver from searching for
    // the distinctness of the seven names itself.
    RequiredPropsDistinct();
  }

  /** The `actions` failure occurs exactly when all seven properties are
      present but `actions` is not a non-empty array. */
  lemma ManifestActionsFailure(doc: Document)
    ensures ValidateManifest(doc) == Fail(ActionsNotNonEmptyArray) <==>
      && doc.Parsed?
      && (forall i | 0 <= i < |RequiredProps| :: Present(doc.value, RequiredProps[i]))
      && !(doc.value.Obj? && var a := Lookup(doc.value.members, "actions");
           a.Defined? && a.value.Arr? && |a.value.elems| > 0)
  {
  }

  /** An empty `actions` array is truthy, so it passes the presence checks
      and is rejected only by the array check. */
  lemma EmptyActionsRejected(v: Json)
    requires v.Obj? && Lookup(v.members, "actions") == Defined(Arr([]))
    requires forall i | 0 <= i < ActionsIndex :: Present(v, RequiredProps[i])
    ensures Present(v, "actions")
    ensures ValidateManifest(Parsed(v)) == Fail(ActionsNotNonEmptyArray)
  {
  }

  /** A truthy `actions` value that is not an array fails the same way. */
  lemma NonArrayActionsRejected(v: Json, x: Json)
    requires v.Obj? && Lookup(v.members, "actions") == Defined(x)
    requires Truthy(Defined(x)) && !x.Arr?
    requires forall i | 0 <= i < ActionsIndex :: Present(v, RequiredProps[i])
    ensures ValidateManifest(Parsed(v)) == Fail(ActionsNotNonEmptyArray)
  {
  }

  /** A document that is not an object never validates: `null` throws on the
      first read and is caught, any other value reads `undefined` for the
      first key checked. */
  lemma NonObjectNeverValidates(v: Json)
    requires !v.Obj?
    ensures ValidateSchema(Parsed(v)) ==
      if v.Null? then Fail(Caught) else Fail(MissingSchemas)
    ensures ValidateManifest(Parsed(v)) ==
      if v.Null? then Fail(Caught) else Fail(MissingProperty("id"))
  {
  }

  /** `u` and `v` are objects that agree on which members are truthy and on
      the value of every truthy member. */
  ghost predicate AgreeOnTruthyMembers(u: Json, v: Json) {
    && u.Obj?
    && v.Obj?
    && forall k ::
      && (Present(u, k) <==> Present(v, k))
      && (Present(u, k) ==> Lookup(u.members, k) == Lookup(v.members, k))
  }

  /** The agreement at one key. */
  lemma AgreeAt(u: Json, v: Json, k: string)
    requires AgreeOnTruthyMembers(u, v)
    ensures Present(u, k) <==> Present(v, k)
    ensures Present(u, k) ==> Get(u, k) == Get(v, k)
  {
  }

  /** Whatever its position, a member named `key` whose value is falsy (or
      no such member at all) has the effect of deleting every member of that
      name. */
  lemma FalsyMemberLikeAbsent(ms: seq<Member>, key: string)
    requires !Truthy(Lookup(ms, key))
    ensures AgreeOnTruthyMembers(Obj(ms), Obj(Without(ms, key)))
  {
    forall k
      ensures && (Present(Obj(ms), k) <==> Present(Obj(Without(ms, key)), k))
              && (Present(Obj(ms), k) ==> Lookup(ms, k) == Lookup(Without(ms, key), k))
    {
      LookupWithout(ms, key, k);
    }
  }

  /** Scanning keys in order sees only which of them are present. */
  lemma {:induction false} FindMissingSeesOnlyPresence(u: Json, v: Json, keys: seq<string>)
    requires u.Null? == v.Null?
    requires forall i | 0 <= i < |keys| :: Present(u, keys[i]) == Present(v, keys[i])
    ensures FindMissing(u, keys) == FindMissing(v, keys)
    decreases |keys|
  {
    if |keys| > 0 && !u.Null? && Present(u, keys[0]) {
      FindMissingSeesOnlyPresence(u, v, keys[1..]);
    }
  }

  /** The manifest check cannot tell apart objects that agree on their
      truthy members. */
  lemma ManifestSeesOnlyTruthyMembers(u: Json, v: Json)
    requires AgreeOnTruthyMembers(u, v)
    ensures ValidateManifest(Parsed(u)) == ValidateManifest(Parsed(v))
  {
    forall i | 0 <= i < |RequiredProps|
      ensures Present(u, RequiredProps[i]) == Present(v, RequiredProps[i])
    {
      AgreeAt(u, v, RequiredProps[i]);
    }
    FindMissingSeesOnlyPresence(u, v, RequiredProps);
    if FindMissing(u, RequiredProps).AllPresent? {
      AgreeAt(u, v, "actions");
    }
  }

  /** The schema check cannot tell apart documents that agree on their truthy
      members, nor documents whose `schemas` members agree on theirs. */
  lemma SchemaSeesOnlyTruthyMembers(u: Json, v: Json)
    requires AgreeOnTruthyMembers(u, v) || (
      && Present(u, "schemas") && Present(v, "schemas")
      && AgreeOnTruthyMembers(SchemasOf(u), SchemasOf(v)))
    ensures ValidateSchema(Parsed(u)) == ValidateSchema(Parsed(v))
  {
    if Present(u, "schemas") && Present(v, "schemas") {
      FindMissingSeesOnlyPresence(SchemasOf(u), SchemasOf(v), RequiredSchemas);
    }
  }

  /** A manifest member whose value is `""`, `0`, `false` or `null` counts as
      missing, wherever it stands in the object. */
  lemma ManifestFalsyMemberIsAbsent(ms: seq<Member>, key: string)
    requires !Truthy(Lookup(ms, key))
    ensures ValidateManifest(Parsed(Obj(ms))) == ValidateManifest(Parsed(Obj(Without(ms, key))))
  {
    FalsyMemberLikeAbsent(ms, key);
    ManifestSeesOnlyTruthyMembers(Obj(ms), Obj(Without(ms, key)));
  }

  /** A falsy top-level member of the schema document counts as missing. */
  lemma SchemaFalsyMemberIsAbsent(ms: seq<Member>, key: string)
    requires !Truthy(Lookup(ms, key))
    ensures ValidateSchema(Parsed(Obj(ms))) == ValidateSchema(Parsed(Obj(Without(ms, key))))
  {
    FalsyMemberLikeAbsent(ms, key);
    SchemaSeesOnlyTruthyMembers(Obj(ms), Obj(Without(ms, key)));
  }

  /** A falsy member inside `schemas`, such as `"Flow": 0`, counts as missing:
      a document whose `schemas` holds it is judged like one whose `schemas`
      lacks that name. */
  lemma NamedSchemaFalsyIsAbsent(u: Json, v: Json, ms: seq<Member>, key: string)
    requires u.Obj? && Lookup(u.members, "schemas") == Defined(Obj(ms))
    requires v.Obj? && Lookup(v.members, "schemas") == Defined(Obj(Without(ms, key)))
    requires !Truthy(Lookup(ms, key))
    ensures ValidateSchema(Parsed(u)) == ValidateSchema(Parsed(v))
  {
    FalsyMemberLikeAbsent(ms, key);
    SchemaSeesOnlyTruthyMembers(u, v);
  }
}

=== FILE: validators.dfy ===
/**
 The two shape checks of the connector's validation script: the schema
 document must name the `Flow` and `FlowRun` schemas, and the plugin manifest
 must carry seven required properties with a non-empty `actions` array.
 Both work on the document once it has been read and parsed; a file that
 cannot be read or parsed is the `Unreadable` document.
 */
module Validate {
  import opened Json

  /** The outcome of reading and parsing a document file. */
  datatype Document = Unreadable | Parsed(value: Json)

  /** Why a check failed. `Caught` is an exception that the check's own
      `catch` turned into a failure; the others name the offending field. */
  datatype Failure =
    | Caught
    | MissingSchemas
    | MissingSchema(name: string)
    | MissingProperty(name: string)
    | ActionsNotNonEmptyArray

  datatype Outcome = Pass | Fail(failure: Failure)

  /** The named schemas the schema document must define, in checking order. */
  const RequiredSchemas: seq<string> := ["Flow", "FlowRun"]

  /** The manifest's required properties, in checking order. */
  const RequiredProps: seq<string> :=
    ["id", "name", "version", "description", "publisher", "endpoints", "actions"]

  /** The position of `actions`, the last required property. */
  const ActionsIndex: nat := |RequiredProps| - 1

  /** No required manifest property is named twice. */
  lemma RequiredPropsDistinct()
    ensures forall i, j | 0 <= i < j < |RequiredProps| :: RequiredProps[i] != RequiredProps[j]
  {
  }

  /** `v[key]` reads without throwing and is truthy. Only an object can have
      a truthy member. */
  predicate Present(v: Json, key: string)
    ensures Present(v, key) <==> v.Obj? && Truthy(Lookup(v.members, key))
  {
    Get(v, key).Read? && Truthy(Get(v, key).prop)
  }

  /** The result of checking `keys` in order, stopping at the first one that
      is missing or whose read throws. */
  datatype Scan = AllPresent | MissingAt(index: nat) | Threw

  /** Checks `keys` in order and stops at the first one whose read throws or
      is falsy. */
  function FindMissing(v: Json, keys: seq<string>): (r: Scan)
    ensures r.Threw? <==> v.Null? && |keys| > 0
    ensures r.AllPresent? <==> forall i | 0 <= i < |keys| :: Present(v, keys[i])
    ensures r.MissingAt? ==>
      && !v.Null?
      && r.index < |keys|
      && !Present(v, keys[r.index])
      && forall j | 0 <= j < r.index :: Present(v, keys[j])
    decreases |keys|
  {
    if |keys| == 0 then AllPresent
    else
      match Get(v, keys[0])
      case TypeError => Threw
      case Read(p) =>
        if !Truthy(p) then MissingAt(0)
        else
          match FindMissing(v, keys[1..])
          case AllPresent => AllPresent
          case MissingAt(i) => MissingAt(i + 1)
          case Threw => Threw
  }

  /** The `schemas` member of a document that has a truthy one. */
  function SchemasOf(v: Json): (s: Json)
    requires Present(v, "schemas")
    ensures Truthy(Defined(s))
  {
    Lookup(v.members, "schemas").value
  }

  /** Reference shape of a schema document: an object whose `schemas` member
      is an object with truthy `Flow` and `FlowRun` members. */
  predicate WellFormedSchemaDocument(v: Json) {
    && v.Obj?
    && var s := Lookup(v.members, "schemas");
    && s.Defined?
    && s.value.Obj?
    && Truthy(Lookup(s.value.members, "Flow"))
    && Truthy(Lookup(s.value.members, "FlowRun"))
  }

  /** Reference shape of a manifest: an object whose seven required members
      are truthy and whose `actions` member is an array with an element. */
  predicate WellFormedManifest(v: Json) {
    && v.Obj?
    && (forall i | 0 <= i < |RequiredProps| :: Truthy(Lookup(v.members, RequiredProps[i])))
    && var a := Lookup(v.members, "actions");
    && a.Defined?
    && a.value.Arr?
    && |a.value.elems| > 0
  }

  /** `validateSchema`: `schemas` must be truthy, then `Flow` and `FlowRun`
      are checked in that order; a thrown error is caught as a failure. */
  function ValidateSchema(doc: Document): (r: Outcome)
    ensures r.Pass? <==> doc.Parsed? && WellFormedSchemaDocument(doc.value)
    ensures r == Fail(Caught) <==> doc.Unreadable? || doc.value.Null?
    ensures r == Fail(MissingSchemas) <==>
      doc.Parsed? && !doc.value.Null? && !Present(doc.value, "schemas")
    ensures r == Fail(MissingSchema("Flow")) <==>
      && doc.Parsed?
      && Present(doc.value, "schemas")
      && !Present(SchemasOf(doc.value), "Flow")
    ensures r == Fail(MissingSchema("FlowRun")) <==>
      && doc.Parsed?
      && Present(doc.value, "schemas")
      && Present(SchemasOf(doc.value), "Flow")
      && !Present(SchemasOf(doc.value), "FlowRun")
    ensures r.Fail? ==>
      r.failure in {Caught, MissingSchemas, MissingSchema("Flow"), MissingSchema("FlowRun")}
  {
    match doc
    case Unreadable => Fail(Caught)
    case Parsed(v) =>
      match Get(v, "schemas")
      case TypeError => Fail(Caught)
      case Read(p) =>
        if !Truthy(p) then Fail(MissingSchemas)
        else
          match FindMissing(p.value, RequiredSchemas)
          case AllPresent => Pass
          case MissingAt(i) => Fail(MissingSchema(RequiredSchemas[i]))
          case Threw => Fail(Caught)
  }

  /** `actions` is an array with at least one element. */
  predicate IsNonEmptyArray(a: Access)
    ensures IsNonEmptyArray(a) ==> a.Read? && Truthy(a.prop)
  {
    a.Read? && a.prop.Defined? && a.prop.value.Arr? && |a.prop.value.elems| > 0
  }

  /** `validateManifest`: the required properties are checked in order, then
      `actions` must be a non-empty array; a thrown error is caught as a
      failure. */
  function ValidateManifest(doc: Document): (r: Outcome)
    ensures r == Fail(Caught) <==> doc.Unreadable? || doc.value.Null?
    ensures r.Fail? && r.failure.MissingProperty? ==>
      exists i | 0 <= i < |RequiredProps| ::
        && r.failure.name == RequiredProps[i]
        && !Present(doc.value, RequiredProps[i])
        && forall j | 0 <= j < i :: Present(doc.value, RequiredProps[j])
    ensures r.Fail? ==> !r.failure.MissingSchema? && r.failure != MissingSchemas
  {
    match doc
    case Unreadable => Fail(Caught)
    case Parsed(v) =>
      match FindMissing(v, RequiredProps)
      case Threw => Fail(Caught)
      case MissingAt(i) => Fail(MissingProperty(RequiredProps[i]))
      case AllPresent =>
        if IsNonEmptyArray(Get(v, "actions")) then Pass
        else Fail(ActionsNotNonEmptyArray)
  }

  /** The manifest check accepts exactly the manifests of the reference
      shape. */
  lemma ManifestAcceptsExactlyWellFormed(doc: Document)
    ensures ValidateManifest(doc).Pass? <==> doc.Parsed? && WellFormedManifest(doc.value)
  {
  }
}
